=== FILE: README.md ===
# EcoGarden: weather cache, entities and controllers in Dafny

A Dafny model of the runtime core of the EcoGarden API (a Symfony application that
serves monthly gardening advice and the local weather to its users):

- **Weather lookup** (`weather_service.dfy`, module `WeatherService`): the cache-aside
  `getWeatherByCity`. The cache key is `"weather_"` followed by the city lowered with
  PHP's ASCII-only `strtolower`. A fresh entry in the key → (raw payload, expiry) store is
  served without calling the provider. On a miss the provider is called once with the
  city as typed, and its raw payload is stored for 3600 seconds. The result is the
  `cached` flag plus five fields projected from the payload, on a hit and on a miss
  alike. The lookup is specified by the function `Lookup` over the store, a clock value
  and the provider. The class `WeatherService` runs it against a shared `CacheStore`
  object that it updates in place.
- **Entities** (`entity.dfy`, module `Entity`): the `User` and `Advice` classes with
  their setters. It also has `getRoles`, which copies the stored roles, appends
  `ROLE_USER` and drops repeats (`ArrayUnique`, PHP's `array_unique`). And it has the
  two sides of the user → advices association (`AddAdvice`, `RemoveAdvice`, the latter
  through `RemoveFirst`, Doctrine's `removeElement`).
- **Validation loop** (`validation.dfy`, module `Validation`): the `foreach` that
  turns the validator's violations into a path → message map. The four endpoints that
  validate (`createAdvice`, `updateAdvice`, `createUser`, `updateUser`) share it. `ErrorMap` specifies it, and `CollectErrorMessages` is the loop.
- **Advice endpoints** (`advice_controller.dfy`): the 1..12 month guard and the
  row → entity mapping of `getAdviceByMonth`, plus create/update/delete on the advice
  table. The signed-in user is always made the creator, and the flush refuses a row
  without a description (the column is NOT NULL).
- **User endpoints** (`user_controller.dfy`): `createUser`, `updateUser` and
  `deleteUser` as spec functions on the user table, with lemmas about them. The class
  `UserTable` runs them, and each of its methods is proved equal to its spec function.
  The unique constraint on the email column is enforced when the table is flushed.

Collaborators the code calls but that are not visible are parameters: the
OpenWeatherMap client (`Provider`, a city → payload-or-failure function), the clock
(`now`, in seconds), the validators, the password hasher, the `findByMonth` SQL query,
the signed-in user and the id the database generates. The request body is modelled key
by key (`None`: key absent). Deserialising calls the setter of every key present.

Some behaviours of the weather lookup worth knowing:
- The city is not trimmed before it becomes a key (`LeadingSpaceIsKept`).
- The service adds no coalescing of concurrent misses of its own; the model is one sequential lookup.
- A city containing one of the characters `{}()/\@:` gives a key the cache pool refuses: the lookup fails before the provider is called (`ReservedCharacterIsRefused`).
- A failed provider call reaches the caller as a failure; an expired entry is never served instead (`FailureIsNotCached`).
- An empty city is looked up like any other, under the key `weather_`.

## Model

| member | source | states |
|---|---|---|
| `WeatherService.CacheKey` | src/Service/WeatherService.php:50 | the key is `weather_` followed by the city, character by character, with ASCII letters lowered, and has exactly that length |
| `WeatherService.SameKeyIffSameIgnoringCase` | src/Service/WeatherService.php:50 | two cities share a cache key if and only if they differ only in ASCII letter case |
| `WeatherService.LeadingSpaceIsKept` | src/Service/WeatherService.php:50 | `Paris` and `paris` share an entry, while ` paris` does not (no trimming) |
| `WeatherService.LoweringKeepsReserved` | src/Service/WeatherService.php:50 | lowering a character never makes or removes one of the pool's reserved characters |
| `WeatherService.ValidKeyIffNoReservedCharacter` | src/Service/WeatherService.php:50-54 | the pool accepts a city's key exactly when the city has none of the characters `{}()/\@:` |
| `WeatherService.Project` | src/Service/WeatherService.php:75-82 | the returned array: the `cached` flag and the five fields `name`, `main.temp`, `weather[0].description`, `main.humidity`, `wind.speed`, read from the raw payload on every call (its properties are stated by the next row) |
| `WeatherService.ProjectionReadsExactlyReportedFields` | src/Service/WeatherService.php:75-82 | two reports are equal if and only if the payloads agree on `name`, `main.temp`, `weather[0].description`, `main.humidity`, `wind.speed` and the flags agree; the flag is copied as given |
| `WeatherService.Lookup` | src/Service/WeatherService.php:47-83 | a key with a reserved character: failure, no provider call, store unchanged. Fresh hit: no provider call, store unchanged, `cached` true. Miss: exactly one call, with the un-lowered city. Only the lookup's own key is written. A failure writes nothing. `cached` is true exactly when the provider was not called |
| `WeatherService.MissStoresRawPayload` | src/Service/WeatherService.php:54-71 | on a successful miss the store gets the raw payload under the key with expiry now + 3600, and the report is its projection with `cached` false |
| `WeatherService.SecondLookupIsHit` | src/Service/WeatherService.php:54-82 | after a successful miss, a lookup of the same city in any letter case within 3600 s calls nothing, changes nothing and returns the same fields with `cached` true |
| `WeatherService.FailureIsNotCached` | src/Service/WeatherService.php:54-72 | a failed provider call leaves no entry, so any later lookup of that city calls the provider again |
| `WeatherService.ReservedCharacterIsRefused` | src/Service/WeatherService.php:54 | `Paris:75` fails with no provider call and no store change, whatever the store holds |
| `WeatherService.CacheStore.Save` | src/Service/WeatherService.php:54-56 | writing an entry replaces only that key's entry |
| `WeatherService.WeatherService.GetWeatherByCity` | src/Service/WeatherService.php:47-83 | the imperative lookup (flag set to true, cleared inside the miss branch, store written in place) returns exactly what `Lookup` specifies and leaves the store as `Lookup` says |
| `Entity.ArrayUnique` | src/Entity/User.php:80 | the result has no repeats, holds exactly the values of the input, and keeps them in order of first occurrence |
| `Entity.RemoveFirst` | src/Entity/User.php:133 | an absent element leaves the list as is; otherwise the first occurrence is cut out and the rest keeps its order |
| `Entity.RemoveFirstTakesOneCopy` | src/Entity/User.php:133 | removing a present element takes exactly one copy out and shortens the list by one |
| `Entity.RemoveFirstOfDistinct` | src/Entity/User.php:133 | in a list without repeats, removing an element removes it entirely, keeps the list without repeats and adds nothing |
| `Entity.User.GetRoles` | src/Entity/User.php:75-81 | always contains `ROLE_USER`; contains every stored role and nothing else; no repeats; order of first occurrence in stored roles + `ROLE_USER`; reads only, so the stored roles are unchanged |
| `Entity.User.constructor` | src/Entity/User.php:49-52 | a new user has an empty advice collection and null id, email, password and city, with no roles |
| `Entity.User.SetEmail` | src/Entity/User.php:64-68 | the email is set, and both `getUserIdentifier` and `getUsername` then return it; no other field changes |
| `Entity.User.SetRoles` | src/Entity/User.php:83-87 | stores the roles as given; no other field changes |
| `Entity.User.SetPassword` | src/Entity/User.php:94-98 | stores the password as given; no other field changes |
| `Entity.User.SetCity` | src/Entity/User.php:110-114 | stores the city; no other field changes |
| `Entity.User.AddAdvice` | src/Entity/User.php:121-129 | an absent advice is appended and its creator set to this user; a present one changes nothing (so a second call is a no-op); afterwards the advice is in the collection; the two sides of the association stay in agreement (`Linked`: no repeats, every advice names this user as creator) |
| `Entity.User.RemoveAdvice` | src/Entity/User.php:131-140 | a present advice loses its first occurrence, and its creator is cleared only if it was this user; an absent advice changes nothing; when the two sides agreed before, they still agree and the advice is no longer in the collection |
| `Entity.Advice.constructor` | src/Entity/Advice.php:17-30 | a new advice has null id, description and creator and an empty month list |
| `Entity.Advice.SetDescription` | src/Entity/Advice.php:37-46 | `GetDescription` then returns the text; no other field changes |
| `Entity.Advice.SetMonth` | src/Entity/Advice.php:48-57 | `GetMonth` returns the list exactly as given (no range check, no dedup); no other field changes |
| `Entity.Advice.SetCreatedBy` | src/Entity/Advice.php:59-68 | accepts null; `GetCreatedBy` returns exactly what was set; no other field changes |
| `Validation.ErrorMap` | src/Controller/AdviceController.php:62-65 | the error map's keys are exactly the property paths of the violations |
| `Validation.LastMessageWins` | src/Controller/AdviceController.php:64 | the message kept for a path is that of the last violation on that path |
| `Validation.LaterViolationOverwrites` | src/Controller/AdviceController.php:64 | of two violations on one path, the later message is the one kept |
| `Validation.CollectErrorMessages` | src/Controller/UserController.php:42-45 | the loop builds exactly `ErrorMap` of the violations, keyed by their paths |
| `AdviceController.Populate` | src/Controller/AdviceController.php:164 | deserialising onto an advice: an empty body changes nothing, a body with both keys sets the text and months, and the creator never comes from the body |
| `AdviceController.GetAdviceByMonth` | src/Controller/AdviceController.php:120-132 | a month below 1 or above 12 is a bad request; otherwise the query runs with that month and the result has one entity (or null) per row, fetched by the row's id, in the same order |
| `AdviceController.ListingHoldsExactlyThatMonth` | src/Controller/AdviceController.php:125-127 | if the query returns exactly the rows whose month list contains the month, the listing holds exactly those advices, none null |
| `AdviceController.AdviceTable.Flush` | src/Controller/AdviceController.php:72-73 | the written row is stored exactly when its NOT NULL columns (text, creator) are filled; otherwise nothing changes |
| `AdviceController.AdviceTable.CreateAdvice` | src/Controller/AdviceController.php:57-79 | violations give 400 with the error map and store nothing; a body without `description` passes validation and is then refused at the flush, storing nothing; otherwise the advice from the body is stored under a new id, with the signed-in user as creator; every stored row keeps its NOT NULL columns filled |
| `AdviceController.AdviceTable.UpdateAdvice` | src/Controller/AdviceController.php:163-183 | an unknown id is not found. Violations give 400 and nothing is flushed. Otherwise the body's keys are applied and the signed-in user replaces the previous creator (the flush is never refused, as a stored row has a text); no other advice changes |
| `AdviceController.AdviceTable.DeleteAdvice` | src/Controller/AdviceController.php:203-209 | an unknown id is not found; otherwise exactly that advice is removed |
| `UserController.Populate` | src/Controller/UserController.php:104-106 | deserialising onto a user: an empty body changes nothing, and a body with every key replaces the whole record |
| `UserController.Truthy` | src/Controller/UserController.php:117 | an absent password, `""` and `"0"` are false; every string of two or more characters is true |
| `UserController.EmailInUse` | src/Controller/UserController.php:49 | `findOneBy` on the email: some stored user has exactly that email |
| `UserController.FreeEmailKeepsUnique` | src/Controller/UserController.php:49-57 | on a table with unique emails, a record whose email no stored user has can be inserted under a new id without breaking uniqueness |
| `UserController.Commit` | src/Entity/User.php:16 | a flush never makes two users share an email on a table where none did; it writes all of the pending table, or nothing and the answer is an exception |
| `UserController.CreateUserSpec` | src/Controller/UserController.php:37-60 | violations give the error map and store nothing. A taken email gives a conflict and stores nothing. Success adds exactly one user, leaves the others unchanged, stores the hash of the submitted password, and takes the email, city and roles from the request |
| `UserController.SignUpGrantsRequestedRoles` | src/Controller/UserController.php:37-60 | the endpoint has no role check and keeps the body's roles: a created user whose request asked for `ROLE_ADMIN` holds it
| `UserController.CreateOnFreeEmailSucceeds` | src/Controller/UserController.php:49-57 | the email check keeps the unique constraint: a valid body with a free email and a password is always created |
| `UserController.UpdateUserSpec` | src/Controller/UserController.php:96-125 | an unknown id is not found and nothing changes. Violations give the error map with nothing flushed. Success rewrites only that user, whose email, city and roles are those of the body applied to the stored user |
| `UserController.UpdatePasswordRule` | src/Controller/UserController.php:104-120 | after a successful update the password is the hash of the body's password when that is truthy, and the stored one when the body has no password; each of email, city and roles is the body's value when present and the stored one otherwise |
| `UserController.UpdateOnFreeEmailSucceeds` | src/Controller/UserController.php:96-125 | on a table with unique emails, an update the validator accepts whose resulting email no other user holds is applied (answers `Updated`) |
| `UserController.UpdateNeverStoresPlainPassword` | src/Controller/UserController.php:108-120 | with a validator that refuses passwords under six characters, a password sent in an update is always stored hashed |
| `UserController.DeleteUserSpec` | src/Controller/UserController.php:141-153 | an unknown id is not found and nothing changes; otherwise exactly that user is removed, and the others are unchanged |
| `UserController.EndpointsKeepUniqueEmails` | src/Entity/User.php:16 | create, update and delete all keep every email held by at most one user |
| `UserController.UserTable.Flush` | src/Controller/UserController.php:122 | writes the pending table exactly when it keeps emails unique |
| `UserController.UserTable.CreateUser` | src/Controller/UserController.php:37-60 | keeps the unique-email invariant; its answer and new table are those of `CreateUserSpec` |
| `UserController.UserTable.UpdateUser` | src/Controller/UserController.php:96-125 | keeps the unique-email invariant; its answer and new table are those of `UpdateUserSpec` |
| `UserController.UserTable.DeleteUser` | src/Controller/UserController.php:141-153 | keeps the unique-email invariant; its answer and new table are those of `DeleteUserSpec` |

## Left out

- The HTTP request to OpenWeatherMap and its JSON decoding: the provider is an abstract function of the city (the API key, units and language it sends are not modelled).
- The five-second `sleep` in the miss branch: it has no effect on results.
- Floating-point values: temperature and wind speed are `real` values that are only copied.
- Payloads missing one of the five fields: the provider returns only payloads that carry them (`RawWeather`), rather than modelling PHP's null-with-warning reads.
- Internals of the tag-aware cache pool: tags, eviction, and probabilistic early recomputation (with it, `get` may recompute a still-fresh item). The store is a plain key → (payload, expiry) map, and an entry is fresh while the clock is before its expiry.
- Concurrency, including the cache pool's lock-based stampede protection: under a web server the pool wraps the callback in a per-key lock, so a second concurrent miss on the same host waits and then reads the stored item without calling the provider (its `cached` flag stays true). The model is one sequential lookup.
- `getAdviceList` (current-month listing): it reads the clock and returns the raw query rows; the month query itself is modelled through `GetAdviceByMonth`.
- `getAllUsers`, `getId`, `getEmail`, `getPassword`, `getCity`, `getAdvices` and `eraseCredentials`: they return a field or do nothing.
- Response bodies, serialization groups, the `Location` header, routing and role checks: responses are modelled by their kind (and status code).
- The exception subscriber that turns exceptions into JSON bodies: an escaping exception is the `Thrown` answer. The subscriber does not keep its own status, so the kernel sends 500 for such an exception (and the status of an HTTP exception, such as 404 from the route's entity lookup); `StatusCode` gives that 500. The body it builds is not modelled.
- The NOT NULL columns of the user table (`email`, `city`): with an abstract validator, `CreateUserSpec` can answer `Created` for a user without an email, which the database would refuse. The validator of the entity refuses a blank email or city, so this does not arise with it.
- The password hasher is salted in the application: `hash(p)` stands for some hash of `p`, and a stored `hash(p)` in a contract reads as "a hash of `p`"; no property depends on the hasher returning the same value twice.
- The foreign key from an advice to its creator: deleting a user who created advices would be refused by the database; `DeleteUserSpec` does not see the advice table.
- UserController.EmailInUse: compares emails exactly, while the lookup and the unique index follow the database collation (case-insensitive, `utf8mb4_unicode_ci`); with it, `A@x.fr` and `a@x.fr` would be one email, answered with a conflict, where the model creates the user. The same holds for `UniqueEmails`.
- `AdviceController.GetAdviceByMonth`: the repository query is a parameter. Its contract (rows whose month list contains the month) is assumed only in `ListingHoldsExactlyThatMonth`, and its SQL is not modelled.
- Request bodies whose values have other JSON types than the fields' types (such as a numeric password): bodies carry strings and lists only.
- Array keys kept by `array_unique` (the result of `getRoles` can have gaps in its keys): `ArrayUnique` returns a list.
- Identity of entities between the controllers and the entity classes: the controllers work on value records of the persisted columns, and a user is referred to by id.

=== FILE: advice_controller.dfy ===
/** The advice endpoints: the month listing (a 1..12 guard, then the repository's
    rows mapped to entities by id) and create/update/delete on the advice table,
    where the signed-in user always becomes the creator. The repository query, the
    validator and the signed-in user are parameters. */
module AdviceController {
  import opened Wrappers
  import opened Validation

  /** The persisted columns of an advice; the creator is a user id. */
  datatype AdviceRecord = AdviceRecord(description: Option<string>, month: seq<int>,
                                       createdBy: Option<int>)

  /** A freshly constructed advice. */
  const NewAdvice: AdviceRecord := AdviceRecord(None, [], None)

  /** The JSON request body, key by key (`None`: the key is absent). */
  datatype AdviceBody = AdviceBody(description: Option<string>, month: Option<seq<int>>)

  type Validator = AdviceRecord -> seq<Violation>
  type Table = map<int, AdviceRecord>

  /** The NOT NULL columns of the advice table: the text and the creator (the month
      list is a JSON value and never null). */
  predicate Storable(advice: AdviceRecord)
  {
    advice.description.Some? && advice.createdBy.Some?
  }

  /** Deserialising onto an advice: the setter of every key present in the body is
      called. An empty body leaves the advice as it was, a body with both keys replaces
      its text and months, and the creator never comes from the body. */
  function Populate(advice: AdviceRecord, body: AdviceBody): (r: AdviceRecord)
    ensures body == AdviceBody(None, None) ==> r == advice
    ensures body.description.Some? && body.month.Some? ==>
              r.description == body.description && r.month == body.month.value
    ensures r.createdBy == advice.createdBy
  {
    AdviceRecord(
      if body.description.Some? then body.description else advice.description,
      if body.month.Some? then body.month.value else advice.month,
      advice.createdBy)
  }

  // ---------------------------------------------------------------------------
  // Listing by month

  /** The repository as the listing uses it: the table behind `find`, and the
      `findByMonth` query returning the ids of its rows in the order the database
      chose. */
  datatype Repository = Repository(table: Table, findByMonth: int -> seq<int>)
  {
    /** `find($id)`: the advice with that id, or null. */
    function Find(id: int): Option<AdviceRecord>
    {
      if id in table then Some(table[id]) else None
    }

    /** The query's contract: it returns the ids of exactly the rows whose month list
        contains the month. */
    ghost predicate FindsByMonth()
    {
      forall m: int, id: int ::
        id in findByMonth(m) <==> id in table && m in table[id].month
    }
  }

  /** `getAdviceByMonth`: a month outside 1..12 is a bad request; otherwise the rows
      of the query for that month, mapped to entities one by one, in the same order. */
  function GetAdviceByMonth(mois: int, repo: Repository): (r: Result<seq<Option<AdviceRecord>>, string>)
    ensures mois < 1 ==> r.Failure?
    ensures mois > 12 ==> r.Failure?
    ensures 1 <= mois <= 12 ==>
              && r.Success?
              && |r.value| == |repo.findByMonth(mois)|
              && forall i :: 0 <= i < |r.value| ==> r.value[i] == repo.Find(repo.findByMonth(mois)[i])
  {
    if mois < 1 || mois > 12 then
      Failure("Mois invalide. Il doit être entre 1 et 12.")
    else
      var data := repo.findByMonth(mois);
      Success(seq(|data|, i requires 0 <= i < |data| => repo.Find(data[i])))
  }

  /** With a repository that keeps its contract, the listing for a valid month holds
      exactly the advices whose month list contains that month, none of them null. */
  lemma ListingHoldsExactlyThatMonth(mois: int, repo: Repository)
    requires 1 <= mois <= 12
    requires repo.FindsByMonth()
    ensures var r := GetAdviceByMonth(mois, repo);
      && r.Success?
      && (forall a :: a in r.value ==> a.Some? && mois in a.value.month)
      && (forall id :: id in repo.table && mois in repo.table[id].month ==>
            Some(repo.table[id]) in r.value)
  {
    var r := GetAdviceByMonth(mois, repo);
    var data := repo.findByMonth(mois);
    forall a | a in r.value
      ensures a.Some? && mois in a.value.month
    {
      var i :| 0 <= i < |r.value| && r.value[i] == a;
      assert data[i] in data;
    }
    forall id | id in repo.table && mois in repo.table[id].month
      ensures Some(repo.table[id]) in r.value
    {
      assert id in data;
      var i :| 0 <= i < |data| && data[i] == id;
      assert r.value[i] == Some(repo.table[id]);
    }
  }

  // ---------------------------------------------------------------------------
  // Create, update, delete

  /** What an advice endpoint answers. */
  datatype Response =
    | Created(id: int)
    | BadRequest(errors: map<string, string>)
    | NoContent
    | NotFound
    | Thrown(reason: string)

  /** The status each answer carries; for `Thrown`, the status the exception subscriber
      writes into its JSON body. */
  function StatusCode(r: Response): int
  {
    match r
    case Created(_) => 201
    case BadRequest(_) => 400
    case NoContent => 204
    case NotFound => 404
    case Thrown(_) => 500
  }

  class AdviceTable {
    var advices: Table

    /** Every stored row fills the NOT NULL columns. */
    ghost predicate Valid()
      reads this
    {
      forall id | id in advices :: Storable(advices[id])
    }

    constructor ()
      ensures advices == map[] && Valid()
    {
      advices := map[];
    }

    /** `flush` of one written row: the database refuses a row with a null in a
        NOT NULL column, and then nothing is written. */
    method Flush(id: int, advice: AdviceRecord) returns (ok: bool)
      modifies this
      ensures ok == Storable(advice)
      ensures advices == if ok then old(advices)[id := advice] else old(advices)
    {
      ok := Storable(advice);
      if ok {
        advices := advices[id := advice];
      }
    }

    /** `createAdvice`: with violations a 400 and nothing stored; a body without a
        description passes validation (the entity declares no constraint) and is then
        refused at the flush; otherwise the new advice, created by the signed-in user,
        is stored under a fresh id. */
    method CreateAdvice(body: AdviceBody, validate: Validator, currentUser: int, newId: int)
      returns (response: Response)
      requires Valid() && newId !in advices
      modifies this
      ensures Valid()
      ensures var advice := Populate(NewAdvice, body);
        if validate(advice) != [] then
          response == BadRequest(ErrorMap(validate(advice))) && advices == old(advices)
        else if body.description.None? then
          response.Thrown? && advices == old(advices)
        else
          response == Created(newId)
          && advices == old(advices)[newId := advice.(createdBy := Some(currentUser))]
    {
      var advice := Populate(NewAdvice, body);
      var errors := validate(advice);
      if |errors| > 0 {
        var errorMessages := CollectErrorMessages(errors);
        return BadRequest(errorMessages);
      }
      advice := advice.(createdBy := Some(currentUser));
      var ok := Flush(newId, advice);
      response := if ok then Created(newId) else Thrown("NOT NULL constraint violation");
    }

    /** `updateAdvice`: an unknown id is not found (the route's entity lookup); with
        violations a 400 and nothing flushed; otherwise the body is applied and the
        signed-in user replaces whoever created the advice. A stored row already has a
        text and the body can only replace it, so this flush is never refused. */
    method UpdateAdvice(id: int, body: AdviceBody, validate: Validator, currentUser: int)
      returns (response: Response)
      requires Valid()
      modifies this
      ensures Valid()
      ensures id !in old(advices) ==> response == NotFound && advices == old(advices)
      ensures id in old(advices) ==>
        var advice := Populate(old(advices)[id], body);
        if validate(advice) != [] then
          response == BadRequest(ErrorMap(validate(advice))) && advices == old(advices)
        else
          response == NoContent
          && advices == old(advices)[id := advice.(createdBy := Some(currentUser))]
    {
      if id !in advices {
        return NotFound;
      }
      var updatedAdvice := Populate(advices[id], body);
      var errors := validate(updatedAdvice);
      if |errors| > 0 {
        var errorMessages := CollectErrorMessages(errors);
        return BadRequest(errorMessages);
      }
      updatedAdvice := updatedAdvice.(createdBy := Some(currentUser));
      var ok := Flush(id, updatedAdvice);
      response := if ok then NoContent else Thrown("NOT NULL constraint violation");
    }

    /** `deleteAdvice`: an unknown id is not found; otherwise exactly that advice goes. */
    method DeleteAdvice(id: int) returns (response: Response)
      requires Valid()
      modifies this
      ensures Valid()
      ensures id !in old(advices) ==> response == NotFound && advices == old(advices)
      ensures id in old(advices) ==> response == NoContent && advices == old(advices) - {id}
    {
      if id !in advices {
        return NotFound;
      }
      advices := advices - {id};
      response := NoContent;
    }
  }
}

=== FILE: entity.dfy ===
/** The two persisted entities: a `User` (account with roles and the advices it
    created) and an `Advice` (a gardening tip for a list of months). They refer to
    each other, so they share one module. Null columns are `Option` values; the
    nullable creator is a `User?` reference. */
module Entity {
  import opened Wrappers

  /** The role every user has, whatever is stored. */
  const RoleUser: string := "ROLE_USER"

  // ---------------------------------------------------------------------------
  // Sequence helpers standing for PHP's array functions

  predicate NoDuplicates<T(==)>(s: seq<T>)
  {
    forall i, j :: 0 <= i < j < |s| ==> s[i] != s[j]
  }

  /** The position of the first occurrence of `x` in `s`. */
  function FirstIndex<T(==)>(s: seq<T>, x: T): (i: nat)
    requires x in s
    ensures i < |s| && s[i] == x && x !in s[..i]
  {
    if s[0] == x then 0
    else
      var i := 1 + FirstIndex(s[1..], x);
      assert s[..i] == [s[0]] + s[1..][..i - 1];
      i
  }

  /** A position holding `x` with no earlier `x` is the first index. */
  lemma FirstIndexUnique<T>(s: seq<T>, i: nat, x: T)
    requires i < |s| && s[i] == x && x !in s[..i]
    ensures FirstIndex(s, x) == i
  {
  }

  /** PHP's `array_unique` on a list: every value once, at the place of its first occurrence. */
  function ArrayUnique<T(==, !new)>(s: seq<T>): (r: seq<T>)
    ensures NoDuplicates(r)
    ensures forall x :: x in r <==> x in s
    ensures forall i, j :: 0 <= i < j < |r| ==> FirstIndex(s, r[i]) < FirstIndex(s, r[j])
  {
    if s == [] then []
    else
      var init, last := s[..|s| - 1], s[|s| - 1];
      assert s == init + [last];
      var u := ArrayUnique(init);
      if last in init then
        FirstIndexOfPrefix(s, u);
        u
      else
        FirstIndexOfPrefix(s, u);
        FirstIndexUnique(s, |s| - 1, last);
        u + [last]
  }

  /** The first occurrences in `s` of the values of its prefix are those in the prefix. */
  lemma FirstIndexOfPrefix<T>(s: seq<T>, u: seq<T>)
    requires |s| > 0
    requires forall x :: x in u ==> x in s[..|s| - 1]
    ensures forall x :: x in u ==> FirstIndex(s, x) == FirstIndex(s[..|s| - 1], x)
  {
    forall x | x in u
      ensures FirstIndex(s, x) == FirstIndex(s[..|s| - 1], x)
    {
      var init := s[..|s| - 1];
      var i := FirstIndex(init, x);
      assert s[..i] == init[..i];
      FirstIndexUnique(s, i, x);
    }
  }

  /** Doctrine's `removeElement`: drops the first occurrence of `x`, keeps the order
      of the rest; a list without `x` is returned as is. */
  function RemoveFirst<T(==)>(s: seq<T>, x: T): (r: seq<T>)
    ensures x !in s ==> r == s
    ensures x in s ==> r == s[..FirstIndex(s, x)] + s[FirstIndex(s, x) + 1..]
  {
    if s == [] then []
    else if s[0] == x then s[1..]
    else
      var t := s[1..];
      var r := [s[0]] + RemoveFirst(t, x);
      if x in t then
        var f := FirstIndex(t, x);
        assert FirstIndex(s, x) == f + 1;
        assert s[..f + 1] == [s[0]] + t[..f];
        assert s[f + 2..] == t[f + 1..];
        r
      else
        assert s == [s[0]] + t;
        r
  }

  /** Removing a present element takes exactly one copy of it out of the multiset. */
  lemma {:induction false} RemoveFirstTakesOneCopy<T>(s: seq<T>, x: T)
    requires x in s
    ensures multiset(RemoveFirst(s, x)) == multiset(s) - multiset{x}
    ensures |RemoveFirst(s, x)| == |s| - 1
  {
    assert s == [s[0]] + s[1..];
    if s[0] != x {
      RemoveFirstTakesOneCopy(s[1..], x);
      assert RemoveFirst(s, x) == [s[0]] + RemoveFirst(s[1..], x);
    }
  }

  /** In a list without repeats, removing an element removes it entirely, keeps the
      list without repeats and brings in nothing new. */
  lemma RemoveFirstOfDistinct<T>(s: seq<T>, x: T)
    requires NoDuplicates(s) && x in s
    ensures NoDuplicates(RemoveFirst(s, x))
    ensures x !in RemoveFirst(s, x)
    ensures forall y :: y in RemoveFirst(s, x) ==> y in s
  {
    var f := FirstIndex(s, x);
    var r := RemoveFirst(s, x);
    assert |r| == |s| - 1;
    forall k | 0 <= k < |r|
      ensures r[k] == if k < f then s[k] else s[k + 1]
    {
    }
    forall i, j | 0 <= i < j < |r|
      ensures r[i] != r[j]
    {
      var si := if i < f then i else i + 1;
      var sj := if j < f then j else j + 1;
      assert s[si] != s[sj];
    }
    forall k | 0 <= k < |r|
      ensures r[k] != x
    {
      var sk := if k < f then k else k + 1;
      assert s[sk] != s[f];
    }
  }

  // ---------------------------------------------------------------------------
  // The entities

  class Advice {
    var id: Option<int>
    var description: Option<string>
    /** The months the advice applies to, as given (no range check, no dedup). */
    var month: seq<int>
    var createdBy: User?

    /** A new advice: no id, no text, no months, no creator. */
    constructor ()
      ensures id == None && description == None && month == [] && createdBy == null
    {
      id := None;
      description := None;
      month := [];
      createdBy := null;
    }

    function GetDescription(): Option<string>
      reads this
    {
      description
    }

    method SetDescription(description: string)
      modifies this
      ensures GetDescription() == Some(description)
      ensures id == old(id) && month == old(month) && createdBy == old(createdBy)
    {
      this.description := Some(description);
    }

    function GetMonth(): seq<int>
      reads this
    {
      month
    }

    method SetMonth(month: seq<int>)
      modifies this
      ensures GetMonth() == month
      ensures id == old(id) && description == old(description) && createdBy == old(createdBy)
    {
      this.month := month;
    }

    function GetCreatedBy(): User?
      reads this
    {
      createdBy
    }

    method SetCreatedBy(createdBy: User?)
      modifies this
      ensures GetCreatedBy() == createdBy
      ensures id == old(id) && description == old(description) && month == old(month)
    {
      this.createdBy := createdBy;
    }
  }

  class User {
    var id: Option<int>
    var email: Option<string>
    /** The roles as stored, possibly without `ROLE_USER` and with repeats. */
    var roles: seq<string>
    var password: Option<string>
    var city: Option<string>
    /** The advices this user created (the inverse side of `Advice.createdBy`). */
    var advices: seq<Advice>

    constructor ()
      ensures id == None && email == None && roles == [] && password == None && city == None
      ensures advices == []
    {
      id := None;
      email := None;
      roles := [];
      password := None;
      city := None;
      advices := [];
    }

    /** The identifier used to authenticate: the email, or "" while it is null. */
    function GetUserIdentifier(): string
      reads this
    {
      match email
      case Some(e) => e
      case None => ""
    }

    /** The legacy name of the identifier. */
    function GetUsername(): string
      reads this
    {
      GetUserIdentifier()
    }

    /** The granted roles: the stored ones plus `ROLE_USER`, each once, in order of
        first appearance; computed on a copy, the stored list is not touched. */
    function GetRoles(): (r: seq<string>)
      reads this
      ensures RoleUser in r
      ensures forall x :: x in r <==> x in roles || x == RoleUser
      ensures NoDuplicates(r)
      ensures forall i, j :: 0 <= i < j < |r| ==>
                FirstIndex(roles + [RoleUser], r[i]) < FirstIndex(roles + [RoleUser], r[j])
    {
      ArrayUnique(roles + [RoleUser])
    }

    method SetEmail(email: string)
      modifies this
      ensures this.email == Some(email)
      ensures GetUserIdentifier() == email && GetUsername() == email
      ensures id == old(id) && roles == old(roles) && password == old(password)
      ensures city == old(city) && advices == old(advices)
    {
      this.email := Some(email);
    }

    method SetRoles(roles: seq<string>)
      modifies this
      ensures this.roles == roles
      ensures id == old(id) && email == old(email) && password == old(password)
      ensures city == old(city) && advices == old(advices)
    {
      this.roles := roles;
    }

    method SetPassword(password: string)
      modifies this
      ensures this.password == Some(password)
      ensures id == old(id) && email == old(email) && roles == old(roles)
      ensures city == old(city) && advices == old(advices)
    {
      this.password := Some(password);
    }

    method SetCity(city: string)
      modifies this
      ensures this.city == Some(city)
      ensures id == old(id) && email == old(email) && roles == old(roles)
      ensures password == old(password) && advices == old(advices)
    {
      this.city := Some(city);
    }

    /** The two sides of the association agree: every advice in the collection
        appears in it once and names this user as its creator. */
    ghost predicate Linked()
      reads this, set a: Advice | a in advices
    {
      NoDuplicates(advices) && forall a :: a in advices ==> a.createdBy == this
    }

    /** Adds an advice not yet in the collection and makes this user its creator;
        an advice already present changes nothing, so a second call is a no-op. */
    method AddAdvice(advice: Advice)
      modifies this, advice
      ensures advice in advices
      ensures advice !in old(advices) ==>
                advices == old(advices) + [advice] && advice.createdBy == this
      ensures advice in old(advices) ==>
                advices == old(advices) && advice.createdBy == old(advice.createdBy)
      ensures old(Linked()) ==> Linked()
      ensures id == old(id) && email == old(email) && roles == old(roles)
      ensures password == old(password) && city == old(city)
      ensures advice.id == old(advice.id) && advice.description == old(advice.description)
      ensures advice.month == old(advice.month)
    {
      if advice !in advices {
        advices := advices + [advice];
        advice.SetCreatedBy(this);
      }
    }

    /** Removes an advice from the collection and clears its creator only when the
        creator was this user; an absent advice changes nothing. */
    method RemoveAdvice(advice: Advice)
      modifies this, advice
      ensures advice !in old(advices) ==>
                advices == old(advices) && advice.createdBy == old(advice.createdBy)
      ensures advice in old(advices) ==>
                && advices == RemoveFirst(old(advices), advice)
                && advice.createdBy == (if old(advice.createdBy) == this then null
                                        else old(advice.createdBy))
      ensures old(Linked()) ==> Linked() && advice !in advices
      ensures id == old(id) && email == old(email) && roles == old(roles)
      ensures password == old(password) && city == old(city)
      ensures advice.id == old(advice.id) && advice.description == old(advice.description)
      ensures advice.month == old(advice.month)
    {
      if advice in advices {
        if Linked() {
          RemoveFirstOfDistinct(advices, advice);
        }
        advices := RemoveFirst(advices, advice);
        if advice.GetCreatedBy() == this {
          advice.SetCreatedBy(null);
        }
      }
    }
  }
}

=== FILE: user_controller.dfy ===
/** The user endpoints as operations on the user table: create (validate, refuse a
    taken email, hash the password), update (not-found, validate, rehash only when
    the request carries a password) and delete (not-found, remove). The serializer is
    modelled key by key on the request body; the validator and the password hasher
    are function parameters. */
module UserController {
  import opened Wrappers
  import opened Validation

  /** The persisted columns of a user. */
  datatype UserRecord = UserRecord(email: Option<string>, roles: seq<string>,
                                   password: Option<string>, city: Option<string>)

  /** A freshly constructed user: every nullable column null, no roles. */
  const NewUser: UserRecord := UserRecord(None, [], None, None)

  /** The JSON request body, key by key (`None`: the key is absent). */
  datatype UserBody = UserBody(email: Option<string>, password: Option<string>,
                               city: Option<string>, roles: Option<seq<string>>)

  type Validator = UserRecord -> seq<Violation>
  type Hasher = string -> string
  type Table = map<int, UserRecord>

  /** Deserialising onto a user: the setter of every key present in the body is called.
      An empty body leaves the user as it was; a body with every key replaces all of it. */
  function Populate(user: UserRecord, body: UserBody): (r: UserRecord)
    ensures body == UserBody(None, None, None, None) ==> r == user
    ensures body.email.Some? && body.password.Some? && body.city.Some? && body.roles.Some? ==>
              r == UserRecord(body.email, body.roles.value, body.password, body.city)
  {
    UserRecord(
      if body.email.Some? then body.email else user.email,
      if body.roles.Some? then body.roles.value else user.roles,
      if body.password.Some? then body.password else user.password,
      if body.city.Some? then body.city else user.city)
  }

  /** PHP truthiness of the body's `password` value (`?? null` for an absent key):
      an absent key, `""` and `"0"` are false, every longer string is true. */
  function Truthy(v: Option<string>): (b: bool)
    ensures v.None? ==> !b
    ensures v == Some("") || v == Some("0") ==> !b
    ensures v.Some? && |v.value| >= 2 ==> b
  {
    v.Some? && v.value != "" && v.value != "0"
  }

  /** What a user endpoint answers. `Thrown` is an exception that escapes the controller. */
  datatype Response =
    | Created
    | ValidationFailed(errors: map<string, string>)
    | EmailConflict
    | Updated
    | NotFound
    | Deleted
    | Thrown(reason: string)

  /** The status each answer carries; for `Thrown`, the status the exception subscriber
      writes into its JSON body. */
  function StatusCode(r: Response): int
  {
    match r
    case Created => 201
    case ValidationFailed(_) => 400
    case EmailConflict => 409
    case Updated => 200
    case NotFound => 404
    case Deleted => 204
    case Thrown(_) => 500
  }

  /** `findOneBy(['email' => ...])` finds a stored user. */
  predicate EmailInUse(users: Table, email: Option<string>)
  {
    exists id | id in users :: users[id].email == email
  }

  /** The unique constraint on the email column. */
  predicate UniqueEmails(users: Table)
  {
    forall i, j | i in users && j in users && i != j ::
      users[i].email.Some? ==> users[i].email != users[j].email
  }

  /** The answer and the table after one request. */
  datatype Step = Step(response: Response, users: Table)

  /** `flush`: the pending table is written if it satisfies the unique constraint,
      otherwise the database refuses it and the exception escapes. A table with unique
      emails never loses that property, and a flush writes all of the pending table or
      nothing. */
  function Commit(users: Table, pending: Table, success: Response): (s: Step)
    ensures UniqueEmails(users) ==> UniqueEmails(s.users)
    ensures s.users == pending || (s.users == users && s.response.Thrown?)
  {
    if UniqueEmails(pending) then Step(success, pending)
    else Step(Thrown("unique constraint violation on email"), users)
  }

  /** `createUser`. */
  function CreateUserSpec(users: Table, body: UserBody, validate: Validator, hash: Hasher,
                          newId: int): (s: Step)
    requires newId !in users
    // violations: the path -> message map, nothing stored
    ensures validate(Populate(NewUser, body)) != [] ==>
              s == Step(ValidationFailed(ErrorMap(validate(Populate(NewUser, body)))), users)
    // a taken email: conflict, nothing stored
    ensures validate(Populate(NewUser, body)) == [] && EmailInUse(users, body.email) ==>
              s == Step(EmailConflict, users)
    // anything but success stores nothing
    ensures !s.response.Created? ==> s.users == users
    // success adds exactly one user, whose stored password is the hash of the submitted
    // one and whose email, city and roles are those of the request
    ensures s.response.Created? ==>
              && body.password.Some?
              && s.users.Keys == users.Keys + {newId}
              && (forall id :: id in users ==> s.users[id] == users[id])
              && s.users[newId].password == Some(hash(body.password.value))
              && s.users[newId].email == body.email
              && s.users[newId].city == body.city
              && s.users[newId].roles == (if body.roles.Some? then body.roles.value else [])
  {
    var user := Populate(NewUser, body);
    var violations := validate(user);
    if violations != [] then Step(ValidationFailed(ErrorMap(violations)), users)
    else if EmailInUse(users, user.email) then Step(EmailConflict, users)
    else match user.password
      // a null password reaches the hasher's string parameter: a type error
      case None => Step(Thrown("null password passed to the hasher"), users)
      case Some(plain) => Commit(users, users[newId := user.(password := Some(hash(plain)))], Created)
  }

  /** The email lookup before insertion is enough for the unique constraint: a record
      whose email no stored user has can be added under a new id. */
  lemma FreeEmailKeepsUnique(users: Table, newId: int, user: UserRecord)
    requires newId !in users && UniqueEmails(users)
    requires !EmailInUse(users, user.email)
    ensures UniqueEmails(users[newId := user])
  {
    var pending := users[newId := user];
    forall i, j | i in pending && j in pending && i != j && pending[i].email.Some?
      ensures pending[i].email != pending[j].email
    {
      if i == newId {
        assert users[j].email != user.email;
      } else if j == newId {
        assert users[i].email != user.email;
      }
    }
  }

  /** The email check before insertion keeps the constraint: on a table that satisfies
      it, a valid body with a free email and a password is always created. */
  lemma CreateOnFreeEmailSucceeds(users: Table, body: UserBody, validate: Validator,
                                  hash: Hasher, newId: int)
    requires newId !in users && UniqueEmails(users)
    requires validate(Populate(NewUser, body)) == []
    requires !EmailInUse(users, body.email) && body.password.Some?
    ensures CreateUserSpec(users, body, validate, hash, newId).response == Created
  {
    var user := Populate(NewUser, body).(password := Some(hash(body.password.value)));
    FreeEmailKeepsUnique(users, newId, user);
  }

  /** Sign-up takes the roles from the request: a created user holds exactly the roles
      the body asked for, so a body carrying `ROLE_ADMIN` yields an administrator. */
  lemma SignUpGrantsRequestedRoles(users: Table, body: UserBody, validate: Validator,
                                   hash: Hasher, newId: int)
    requires newId !in users
    requires body.roles == Some(["ROLE_ADMIN"])
    requires CreateUserSpec(users, body, validate, hash, newId).response.Created?
    ensures "ROLE_ADMIN" in CreateUserSpec(users, body, validate, hash, newId).users[newId].roles
  {
    var s := CreateUserSpec(users, body, validate, hash, newId);
    assert s.users[newId].roles == ["ROLE_ADMIN"];
  }

  /** `updateUser` on the user with id `id`. */
  function UpdateUserSpec(users: Table, id: int, body: UserBody, validate: Validator,
                          hash: Hasher): (s: Step)
    // unknown id: not found, nothing changes
    ensures id !in users ==> s == Step(NotFound, users)
    // violations: the error map, nothing flushed
    ensures id in users && validate(Populate(users[id], body)) != [] ==>
              s == Step(ValidationFailed(ErrorMap(validate(Populate(users[id], body)))), users)
    ensures !s.response.Updated? ==> s.users == users
    // success rewrites that one user and no other
    ensures s.response.Updated? ==>
              && id in users
              && s.users.Keys == users.Keys
              && (forall k :: k in users && k != id ==> s.users[k] == users[k])
              && s.users[id].email == Populate(users[id], body).email
              && s.users[id].city == Populate(users[id], body).city
              && s.users[id].roles == Populate(users[id], body).roles
  {
    if id !in users then Step(NotFound, users)
    else
      var user := Populate(users[id], body);
      var violations := validate(user);
      if violations != [] then Step(ValidationFailed(ErrorMap(violations)), users)
      else
        var saved := if Truthy(body.password) then user.(password := Some(hash(body.password.value)))
                     else user;
        Commit(users, users[id := saved], Updated)
  }

  /** A successful update rehashes exactly when the body carries a truthy password,
      and otherwise keeps the stored password untouched. */
  lemma UpdatePasswordRule(users: Table, id: int, body: UserBody, validate: Validator, hash: Hasher)
    requires UpdateUserSpec(users, id, body, validate, hash).response.Updated?
    ensures var s := UpdateUserSpec(users, id, body, validate, hash);
      && (Truthy(body.password) ==> s.users[id].password == Some(hash(body.password.value)))
      && (body.password.None? ==> s.users[id].password == users[id].password)
      && s.users[id].email == (if body.email.Some? then body.email else users[id].email)
      && s.users[id].city == (if body.city.Some? then body.city else users[id].city)
      && s.users[id].roles == (if body.roles.Some? then body.roles.value else users[id].roles)
  {
  }

  /** An update the validator accepts, on a table with unique emails, is applied when
      no other user holds the resulting email. */
  lemma UpdateOnFreeEmailSucceeds(users: Table, id: int, body: UserBody, validate: Validator,
                                  hash: Hasher)
    requires UniqueEmails(users) && id in users
    requires validate(Populate(users[id], body)) == []
    requires Populate(users[id], body).email.Some? ==>
               forall k | k in users && k != id :: users[k].email != Populate(users[id], body).email
    ensures UpdateUserSpec(users, id, body, validate, hash).response == Updated
  {
    var user := Populate(users[id], body);
    var saved := if Truthy(body.password) then user.(password := Some(hash(body.password.value)))
                 else user;
    var pending := users[id := saved];
    forall i, j | i in pending && j in pending && i != j && pending[i].email.Some?
      ensures pending[i].email != pending[j].email
    {
      if i == id {
        assert users[j].email != user.email;
      } else if j == id {
        if saved.email.Some? {
          assert users[i].email != user.email;
        }
      } else {
        assert pending[i] == users[i] && pending[j] == users[j];
      }
    }
  }

  /** A validator that refuses passwords shorter than six characters (as the entity's
      length constraint does). */
  ghost predicate RejectsShortPasswords(validate: Validator)
  {
    forall u: UserRecord ::
      u.password.Some? && |u.password.value| < 6 ==> validate(u) != []
  }

  /** With such a validator, a password sent in an update is never stored in clear:
      the two falsy strings ("" and "0") are too short to pass validation. */
  lemma UpdateNeverStoresPlainPassword(users: Table, id: int, body: UserBody,
                                       validate: Validator, hash: Hasher)
    requires RejectsShortPasswords(validate)
    requires body.password.Some?
    requires UpdateUserSpec(users, id, body, validate, hash).response.Updated?
    ensures UpdateUserSpec(users, id, body, validate, hash).users[id].password
              == Some(hash(body.password.value))
  {
    var user := Populate(users[id], body);
    assert validate(user) == [];
  }

  /** `deleteUser`. */
  function DeleteUserSpec(users: Table, id: int): (s: Step)
    ensures id !in users ==> s == Step(NotFound, users)
    ensures id in users ==> s.response == Deleted && s.users.Keys == users.Keys - {id}
    ensures forall k :: k in s.users ==> k in users && s.users[k] == users[k]
  {
    if id !in users then Step(NotFound, users)
    else Step(Deleted, users - {id})
  }

  /** Every endpoint keeps the unique constraint on emails. */
  lemma {:induction false} EndpointsKeepUniqueEmails(users: Table, id: int, body: UserBody,
                                                     validate: Validator, hash: Hasher, newId: int)
    requires UniqueEmails(users) && newId !in users
    ensures UniqueEmails(CreateUserSpec(users, body, validate, hash, newId).users)
    ensures UniqueEmails(UpdateUserSpec(users, id, body, validate, hash).users)
    ensures UniqueEmails(DeleteUserSpec(users, id).users)
  {
    var d := DeleteUserSpec(users, id).users;
    forall i, j | i in d && j in d && i != j && d[i].email.Some?
      ensures d[i].email != d[j].email
    {
      assert d[i] == users[i] && d[j] == users[j];
    }
  }

  // ---------------------------------------------------------------------------
  // The controller as it runs on the table

  class UserTable {
    var users: Table

    ghost predicate Valid()
      reads this
    {
      UniqueEmails(users)
    }

    constructor ()
      ensures users == map[] && Valid()
    {
      users := map[];
    }

    /** `flush`: writes the pending table unless it breaks the unique constraint. */
    method Flush(pending: Table) returns (ok: bool)
      modifies this
      ensures ok == UniqueEmails(pending)
      ensures users == if ok then pending else old(users)
    {
      ok := UniqueEmails(pending);
      if ok {
        users := pending;
      }
    }

    method CreateUser(body: UserBody, validate: Validator, hash: Hasher, newId: int)
      returns (response: Response)
      requires Valid() && newId !in users
      modifies this
      ensures Valid()
      ensures Step(response, users) == CreateUserSpec(old(users), body, validate, hash, newId)
    {
      var user := Populate(NewUser, body);
      var errors := validate(user);
      if |errors| > 0 {
        var errorMessages := CollectErrorMessages(errors);
        return ValidationFailed(errorMessages);
      }
      if EmailInUse(users, user.email) {
        return EmailConflict;
      }
      if user.password.None? {
        return Thrown("null password passed to the hasher");
      }
      var hashedPassword := hash(user.password.value);
      user := user.(password := Some(hashedPassword));
      var ok := Flush(users[newId := user]);
      response := if ok then Created else Thrown("unique constraint violation on email");
    }

    method UpdateUser(id: int, body: UserBody, validate: Validator, hash: Hasher)
      returns (response: Response)
      requires Valid()
      modifies this
      ensures Valid()
      ensures Step(response, users) == UpdateUserSpec(old(users), id, body, validate, hash)
    {
      if id !in users {
        return NotFound;
      }
      var user := Populate(users[id], body);
      var errors := validate(user);
      if |errors| > 0 {
        var errorMessages := CollectErrorMessages(errors);
        return ValidationFailed(errorMessages);
      }
      if Truthy(body.password) {
        var hashedPassword := hash(user.password.value);
        user := user.(password := Some(hashedPassword));
      }
      var ok := Flush(users[id := user]);
      response := if ok then Updated else Thrown("unique constraint violation on email");
    }

    method DeleteUser(id: int) returns (response: Response)
      requires Valid()
      modifies this
      ensures Valid()
      ensures Step(response, users) == DeleteUserSpec(old(users), id)
    {
      if id !in users {
        return NotFound;
      }
      users := users - {id};
      response := Deleted;
    }
  }
}

=== FILE: validation.dfy ===
/** The loop the four validating endpoints of the advice and user controllers run
    over the validator's violation list: each violation's property path becomes a key
    of the error map, and its message the value; a later violation on the same path
    overwrites an earlier one. */
module Validation {

  /** One constraint violation, as reported by the validator. */
  datatype Violation = Violation(propertyPath: string, message: string)

  /** The property paths that occur in a violation list. */
  function Paths(vs: seq<Violation>): set<string>
  {
    set v | v in vs :: v.propertyPath
  }

  /** The error map after folding `vs` from first to last (the specification of the loop). */
  function ErrorMap(vs: seq<Violation>): (m: map<string, string>)
    ensures m.Keys == Paths(vs)
  {
    if vs == [] then map[]
    else
      var last := vs[|vs| - 1];
      assert vs == vs[..|vs| - 1] + [last];
      ErrorMap(vs[..|vs| - 1])[last.propertyPath := last.message]
  }

  /** The message kept for a path is that of the LAST violation on that path. */
  lemma {:induction false} LastMessageWins(vs: seq<Violation>, i: nat)
    requires i < |vs|
    requires forall j :: i < j < |vs| ==> vs[j].propertyPath != vs[i].propertyPath
    ensures vs[i].propertyPath in ErrorMap(vs)
    ensures ErrorMap(vs)[vs[i].propertyPath] == vs[i].message
  {
    if i < |vs| - 1 {
      var prefix := vs[..|vs| - 1];
      LastMessageWins(prefix, i);
    }
  }

  /** Two violations on one path: the earlier message survives only if the later one repeats it. */
  lemma LaterViolationOverwrites(vs: seq<Violation>, i: nat, j: nat)
    requires i < j < |vs| && vs[i].propertyPath == vs[j].propertyPath
    requires forall k :: j < k < |vs| ==> vs[k].propertyPath != vs[j].propertyPath
    ensures ErrorMap(vs)[vs[i].propertyPath] == vs[j].message
  {
    LastMessageWins(vs, j);
  }

  /** The `foreach` loop that fills the error map. */
  method CollectErrorMessages(vs: seq<Violation>) returns (errorMessages: map<string, string>)
    ensures errorMessages == ErrorMap(vs)
    ensures errorMessages.Keys == Paths(vs)
  {
    errorMessages := map[];
    var i := 0;
    while i < |vs|
      invariant 0 <= i <= |vs|
      invariant errorMessages == ErrorMap(vs[..i])
    {
      assert vs[..i + 1][..i] == vs[..i];
      errorMessages := errorMessages[vs[i].propertyPath := vs[i].message];
      i := i + 1;
    }
    assert vs[..i] == vs;
  }
}

=== FILE: weather_service.dfy ===
/** The cache-aside weather lookup: derive a cache key from the city, return the
    stored provider payload while it is fresh, otherwise ask the provider once, keep
    its raw payload for one hour, and project five fields out of the payload. */
module WeatherService {
  import opened Wrappers

  /** Lifetime of a cache entry, in seconds (`expiresAfter(3600)`). */
  const CacheLifetime: int := 3600

  /** Every cache key starts with this prefix. */
  const KeyPrefix: string := "weather_"

  // ---------------------------------------------------------------------------
  // Key derivation

  /** PHP's `strtolower` on one character: only the ASCII letters A-Z change. */
  function LowerAscii(c: char): char
  {
    if 'A' <= c <= 'Z' then (c as int + 32) as char else c
  }

  /** PHP's `strtolower` on a string. */
  function ToLower(s: string): (r: string)
    ensures |r| == |s|
    ensures forall i :: 0 <= i < |s| ==> r[i] == LowerAscii(s[i])
  {
    seq(|s|, i requires 0 <= i < |s| => LowerAscii(s[i]))
  }

  /** Two city names that differ at most in the case of ASCII letters. */
  predicate SameIgnoringCase(a: string, b: string)
  {
    |a| == |b| && forall i :: 0 <= i < |a| ==> LowerAscii(a[i]) == LowerAscii(b[i])
  }

  /** The cache key of a city: the prefix, then the city with its letters lowered. */
  function CacheKey(city: string): (key: string)
    ensures |key| == |KeyPrefix| + |city|
    ensures key[..|KeyPrefix|] == KeyPrefix
    ensures forall i :: 0 <= i < |city| ==> key[|KeyPrefix| + i] == LowerAscii(city[i])
  {
    KeyPrefix + ToLower(city)
  }

  /** Two cities share a cache entry exactly when they differ only in letter case. */
  lemma SameKeyIffSameIgnoringCase(a: string, b: string)
    ensures CacheKey(a) == CacheKey(b) <==> SameIgnoringCase(a, b)
  {
    var ka, kb := CacheKey(a), CacheKey(b);
    if ka == kb {
      forall i | 0 <= i < |a|
        ensures LowerAscii(a[i]) == LowerAscii(b[i])
      {
        assert ka[|KeyPrefix| + i] == kb[|KeyPrefix| + i];
      }
    }
    if SameIgnoringCase(a, b) {
      assert ka[..|KeyPrefix|] == kb[..|KeyPrefix|];
      forall i | 0 <= i < |ka|
        ensures ka[i] == kb[i]
      {
        if i < |KeyPrefix| {
          assert ka[i] == ka[..|KeyPrefix|][i];
          assert kb[i] == kb[..|KeyPrefix|][i];
        } else {
          assert ka[i] == LowerAscii(a[i - |KeyPrefix|]);
        }
      }
    }
  }

  /** The characters the cache pool refuses in a key: `{}()/\@:`. */
  predicate Reserved(c: char)
  {
    c == '{' || c == '}' || c == '(' || c == ')' || c == '/' || c == '\\' || c == '@' || c == ':'
  }

  /** Lowering a character neither makes nor removes a reserved one. */
  lemma LoweringKeepsReserved(c: char)
    ensures Reserved(LowerAscii(c)) <==> Reserved(c)
  {
    if 'A' <= c <= 'Z' {
      assert 'a' <= LowerAscii(c) <= 'z';
    }
  }

  /** A key the cache pool accepts: none of its characters is reserved. */
  predicate ValidKey(key: string)
  {
    forall i :: 0 <= i < |key| ==> !Reserved(key[i])
  }

  /** The key of a city is accepted exactly when the city has no reserved character:
      the prefix has none, and lowering never makes or removes one. */
  lemma {:induction false} ValidKeyIffNoReservedCharacter(city: string)
    ensures ValidKey(CacheKey(city)) <==> forall i :: 0 <= i < |city| ==> !Reserved(city[i])
  {
    var key := CacheKey(city);
    assert ValidKey(KeyPrefix);
    forall i | 0 <= i < |KeyPrefix|
      ensures !Reserved(key[i])
    {
      assert key[i] == KeyPrefix[i];
    }
    forall i | 0 <= i < |city|
      ensures Reserved(key[|KeyPrefix| + i]) <==> Reserved(city[i])
    {
      LoweringKeepsReserved(city[i]);
    }
    if !ValidKey(key) {
      var j :| 0 <= j < |key| && Reserved(key[j]);
      assert j >= |KeyPrefix|;
      assert Reserved(city[j - |KeyPrefix|]);
    }
  }

  /** The key does not trim: a city with a leading space gets an entry of its own. */
  lemma LeadingSpaceIsKept()
    ensures CacheKey(" paris") != CacheKey("paris")
    ensures CacheKey("Paris") == CacheKey("paris")
  {
    assert |CacheKey(" paris")| != |CacheKey("paris")|;
    SameKeyIffSameIgnoringCase("Paris", "paris");
  }

  // ---------------------------------------------------------------------------
  // Provider payload and the reported result

  datatype MainBlock = MainBlock(temp: real, humidity: int)
  datatype Condition = Condition(description: string)
  datatype WindBlock = WindBlock(speed: real)

  /** The decoded JSON body of the provider: the parts the lookup reads
      (`name`, `main`, `weather`, `wind`), with the `weather` list as sent. */
  datatype Payload = Payload(name: string, main: MainBlock, weather: seq<Condition>, wind: WindBlock)
  {
    /** All five field paths the projection reads are present. */
    predicate HasReportedFields()
    {
      |weather| > 0
    }
  }

  /** A provider payload that carries the five fields the lookup reports. */
  type RawWeather = p: Payload | p.HasReportedFields()
    witness Payload("", MainBlock(0.0, 0), [Condition("")], WindBlock(0.0))

  /** The array returned to callers: exactly these six keys. */
  datatype Report = Report(cached: bool, city: string, temperature: real,
                           description: string, humidity: int, windSpeed: real)

  /** The result projection, recomputed from the raw payload on every call. */
  function Project(raw: RawWeather, cached: bool): Report
  {
    Report(cached, raw.name, raw.main.temp, raw.weather[0].description,
           raw.main.humidity, raw.wind.speed)
  }

  /** Two payloads agree on the five reported field paths. */
  predicate SameReportedFields(p: RawWeather, q: RawWeather)
  {
    && p.name == q.name
    && p.main.temp == q.main.temp
    && p.weather[0].description == q.weather[0].description
    && p.main.humidity == q.main.humidity
    && p.wind.speed == q.wind.speed
  }

  /** The projection reads exactly `name`, `main.temp`, `weather[0].description`,
      `main.humidity` and `wind.speed`, and carries the flag as given. */
  lemma ProjectionReadsExactlyReportedFields(p: RawWeather, q: RawWeather, c: bool, d: bool)
    ensures Project(p, c) == Project(q, d) <==> SameReportedFields(p, q) && c == d
    ensures Project(p, c).cached == c
  {
  }

  // ---------------------------------------------------------------------------
  // The cache store and the lookup, as values

  /** A stored raw payload with the instant (in seconds) it stops being served. */
  datatype Entry = Entry(raw: RawWeather, expiresAt: int)

  type Store = map<string, Entry>

  /** The provider: the city as typed by the caller to a payload or a failure. */
  type Provider = string -> Result<RawWeather, string>

  /** An entry is served while the clock is before its expiry. */
  predicate IsFresh(e: Entry, now: int)
  {
    now < e.expiresAt
  }

  /** Whether the store holds a fresh entry for a key. */
  predicate HasFresh(store: Store, key: string, now: int)
  {
    key in store && IsFresh(store[key], now)
  }

  /** The pool's error for a key with a reserved character. */
  const InvalidKeyMessage: string := "cache key contains reserved characters"

  /** What one lookup produces: the reported result (or the provider's failure),
      the store afterwards, and the cities the provider was called with, in order. */
  datatype Outcome = Outcome(result: Result<Report, string>, store: Store, calls: seq<string>)

  /** The specification of one sequential lookup of `city` at time `now`. */
  function Lookup(store: Store, city: string, now: int, fetch: Provider): (o: Outcome)
    // a key with a reserved character: the pool throws before any provider call
    ensures !ValidKey(CacheKey(city)) ==> o.result.Failure? && o.calls == [] && o.store == store
    // a fresh hit: no provider call, store untouched, flag true
    ensures ValidKey(CacheKey(city)) && HasFresh(store, CacheKey(city), now) ==>
              o.calls == [] && o.store == store
              && o.result == Success(Project(store[CacheKey(city)].raw, true))
    // a miss: exactly one provider call, with the city as typed
    ensures ValidKey(CacheKey(city)) && !HasFresh(store, CacheKey(city), now) ==> o.calls == [city]
    // only the lookup's own key is ever written
    ensures forall k :: k != CacheKey(city) ==> (k in o.store <==> k in store)
    ensures forall k :: k != CacheKey(city) && k in store ==> o.store[k] == store[k]
    // a failure writes nothing
    ensures o.result.Failure? ==> o.store == store
    // the flag says whether the provider was spared
    ensures o.result.Success? ==> (o.result.value.cached <==> o.calls == [])
  {
    var key := CacheKey(city);
    if !ValidKey(key) then
      Outcome(Failure(InvalidKeyMessage), store, [])
    else if HasFresh(store, key, now) then
      Outcome(Success(Project(store[key].raw, true)), store, [])
    else
      match fetch(city)
      case Success(raw) =>
        Outcome(Success(Project(raw, false)), store[key := Entry(raw, now + CacheLifetime)], [city])
      case Failure(e) =>
        Outcome(Failure(e), store, [city])
  }

  /** On a successful miss the store keeps the RAW payload under the key, for one hour. */
  lemma MissStoresRawPayload(store: Store, city: string, now: int, fetch: Provider)
    requires ValidKey(CacheKey(city))
    requires !HasFresh(store, CacheKey(city), now)
    requires fetch(city).Success?
    ensures var o := Lookup(store, city, now, fetch);
      && o.store == store[CacheKey(city) := Entry(fetch(city).value, now + CacheLifetime)]
      && o.result == Success(Project(fetch(city).value, false))
  {
  }

  /** After a successful miss, a later lookup of the same city (or of the same city
      in another letter case) within the lifetime is a hit: no provider call, the
      store unchanged, and the same reported fields with the flag now true. */
  lemma {:induction false} SecondLookupIsHit(store: Store, city: string, again: string,
                                              now: int, later: int, fetch: Provider)
    requires ValidKey(CacheKey(city))
    requires !HasFresh(store, CacheKey(city), now)
    requires fetch(city).Success?
    requires SameIgnoringCase(city, again)
    requires now <= later < now + CacheLifetime
    ensures var first := Lookup(store, city, now, fetch);
            var second := Lookup(first.store, again, later, fetch);
      && first.result.Success?
      && second.calls == []
      && second.store == first.store
      && second.result == Success(first.result.value.(cached := true))
  {
    SameKeyIffSameIgnoringCase(city, again);
    var first := Lookup(store, city, now, fetch);
    assert first.store[CacheKey(city)] == Entry(fetch(city).value, now + CacheLifetime);
  }

  /** A failed provider call caches nothing: any later lookup asks the provider again. */
  lemma FailureIsNotCached(store: Store, city: string, now: int, later: int, fetch: Provider)
    requires ValidKey(CacheKey(city))
    requires !HasFresh(store, CacheKey(city), now)
    requires now <= later
    requires fetch(city).Failure?
    ensures var first := Lookup(store, city, now, fetch);
      first.result.Failure? && Lookup(first.store, city, later, fetch).calls == [city]
  {
  }

  /** A city with a reserved character never reaches the provider, whatever the store
      holds: `Paris:75` fails with no call. */
  lemma ReservedCharacterIsRefused(store: Store, now: int, fetch: Provider)
    ensures var o := Lookup(store, "Paris:75", now, fetch);
      o.result.Failure? && o.calls == [] && o.store == store
  {
    ValidKeyIffNoReservedCharacter("Paris:75");
    assert Reserved("Paris:75"[5]);
  }

  // ---------------------------------------------------------------------------
  // The service as it runs: a cache object shared with the service, updated in place

  /** The injected cache pool: a key -> (raw payload, expiry) store. */
  class CacheStore {
    var entries: Store

    constructor (initial: Store)
      ensures entries == initial
    {
      entries := initial;
    }

    /** Stores a payload under a key, replacing any previous entry. */
    method Save(key: string, raw: RawWeather, expiresAt: int)
      modifies this
      ensures entries == old(entries)[key := Entry(raw, expiresAt)]
    {
      entries := entries[key := Entry(raw, expiresAt)];
    }
  }

  class WeatherService {
    const cache: CacheStore

    constructor (cache: CacheStore)
      ensures this.cache == cache
    {
      this.cache := cache;
    }

    /** `getWeatherByCity`: the lookup at time `now` with provider `fetch`; also
        returns the cities the provider was called with. */
    method GetWeatherByCity(city: string, now: int, fetch: Provider)
      returns (result: Result<Report, string>, calls: seq<string>)
      modifies cache
      ensures var o := Lookup(old(cache.entries), city, now, fetch);
        result == o.result && cache.entries == o.store && calls == o.calls
    {
      var cacheKey := CacheKey(city);
      var isCached := true;
      calls := [];
      if !ValidKey(cacheKey) {
        // the pool validates the key before it looks anything up
        return Failure(InvalidKeyMessage), calls;
      }
      var weather: RawWeather;
      if HasFresh(cache.entries, cacheKey, now) {
        weather := cache.entries[cacheKey].raw;
      } else {
        // the compute callback: runs only on a miss
        isCached := false;
        calls := calls + [city];
        var response := fetch(city);
        if response.Failure? {
          return Failure(response.error), calls;
        }
        weather := response.value;
        cache.Save(cacheKey, weather, now + CacheLifetime);
      }
      result := Success(Report(isCached, weather.name, weather.main.temp,
                               weather.weather[0].description, weather.main.humidity,
                               weather.wind.speed));
    }
  }
}

=== FILE: wrappers.dfy ===
/** Plain wrapper datatypes shared by the modules of this model:
    `Option` stands for PHP's nullable values, `Result` for a call that may throw. */
module Wrappers {

  datatype Option<+T> = None | Some(value: T)

  datatype Result<+R, +E> = Success(value: R) | Failure(error: E)
}
